=== FILE: README.md ===
# Course API: decision logic

A model of the server-side decisions of a small Express/Sequelize REST API
for users and courses. It covers the two course routers, the HTTP Basic
credential check and the validators of the two Sequelize models. Each
handler is a pure function from a request, the caller and a store to a
response and the store the request leaves behind. Responses are a status,
a JSON body and an optional `Location` header, or an error handed on with
`next(error)`.

- `base.dfy` (`Base`): the `Option` and `Result` types. `Value` is the three
  states of a JSON attribute: missing, `null` or given. `NullText` and
  `EmptyText` are the `notNull` and `notEmpty` rules. `Blank` is the
  whitespace-only test behind `notEmpty`, over the characters JavaScript's
  `\s` matches.
- `decimal.dfy` (`Decimal`): the decimal spelling of ids in `Location`
  headers, with its parser.
- `user_model.dfy` (`UserModel`): api/models/users.js. It covers the four
  validated attributes, the password setter and the bcrypt pair. bcrypt is
  uninterpreted: a `Hasher` value holds `hash(plaintext, salt)` and
  `verifies(plaintext, stored)`. The only assumption (`Sound`) is that a
  hash verifies against its plaintext for every salt and is never blank (empty or whitespace only).
- `course_model.dfy` (`CourseModel`): api/models/courses.js. It covers the
  validators, the nullable attributes, the non-null `userId` and the
  `update` merge.
- `database.dfy` (`Database`): the store. Users are a sequence in
  auto-increment id order. Courses are a map from id, plus the next id. The
  module also holds the foreign-key check, the save functions and the store
  invariant `Wellformed`.
- `http.dfy` (`Http`): response bodies and outcomes.
- `routes.dfy` (`Routes`) and `route_properties.dfy` (`RouteProperties`):
  the routes.js router. Its authentication middleware is in a file that is
  not part of this model. Handlers therefore take the `currentUser` that
  middleware attached as a parameter.
- `api_courses.dfy` (`ApiCourses`) and `api_properties.dfy`
  (`ApiProperties`): the api/routes/courses.js router. This covers
  `authenticateUser`, the handlers, which have no ownership guard, and a
  `Handle` function that composes them.
- `scenarios.dfy` (`Scenarios`): properties that span files. They include
  the sign-up then sign-in round trip and the owner guard after a create.

Two inputs come from outside the code:
- The credentials are given as `Option<Credentials>`, because the Basic
  header parser is a library.
- What the database reports beyond the model's own validators is given as
  a `DbFault`: clean, a unique-constraint violation with its messages, or
  another driver failure.

The foreign key from a course to its user is checked against the store.
Writing a course whose `userId` names no user fails with an error that is
neither a validation nor a unique-constraint error. So in routes.js it ends
as a 500, and in the api router it is handed on.

The model follows the code in these places, which a reader may not expect:
- A PUT body may change `userId`, so an owner can hand a course to
  another existing user. The owner is not fixed at creation.
- POST /courses takes the owner from the body's `userId`, not from the
  caller.
- `emailAddress` carries no uniqueness rule. Sign-in resolves to the first
  account with that address.
- Because of the plaintext fallback, a password other than the original
  can succeed: the stored hash string itself is accepted.
- The api router's PUT and DELETE have no ownership check.

## Model

| member | source | states |
|---|---|---|
| Decimal.NatToString | routes.js:109 | the id in a `Location` header is a non-empty string of decimal digits, one digit exactly for ids below ten |
| Decimal.ParseNatToString | routes.js:109 | parsing the digits of a `Location` id gives back the course id |
| Decimal.NatToStringInjective | routes.js:109 | distinct course ids get distinct `Location` headers |
| Decimal.CourseLocation | api/routes/courses.js:101 | the `Location` of a created course is `/courses/` followed by decimal digits that read back as the course id; both routers use it |
| UserModel.SetPassword | api/models/users.js:48-53 | the password attribute is set, to the hash of the given value, exactly when the value is truthy; otherwise it stays unset, never null |
| UserModel.UserErrors | api/models/users.js:9-62 | for each of firstName, lastName, emailAddress and password: the "include" message appears iff the attribute is missing or null, the "enter" message iff it is empty or whitespace only; only these eight messages appear, each at most once, in report order: the "include" messages in attribute order, then the "enter" messages in attribute order; no messages iff all four hold a non-blank string |
| UserModel.UserNullsFirst | api/models/users.js:9-62 | once an "enter" message is listed, only "enter" messages follow |
| UserModel.ToUser | api/models/users.js:7-65 | a valid instance is stored with the given id and exactly its attribute values |
| UserModel.UnsetPasswordRejected | api/models/users.js:45-62 | a falsy password leaves the attribute unset, so the user is rejected with "Please include a password" and never with "Please enter a password" |
| UserModel.HashedPasswordAccepted | api/models/users.js:48-61 | with a sound hasher, a truthy password yields no password message and a stored value that verifies against the plaintext |
| UserModel.EmailHasNoFormatRule | api/models/users.js:33-44 | any two non-blank addresses produce the same message list, with no email message: there is no format or uniqueness rule |
| CourseModel.CourseErrors | api/models/courses.js:7-49 | "Please include a Title"/"Description" iff missing or null, "Please enter a Title"/"Description" iff empty or whitespace only, the userId message iff userId is missing or null; only these five messages appear, each at most once, in report order: title, description and userId null messages, then title and description empty messages; valid iff title and description are non-blank and userId is present |
| CourseModel.CourseNullsFirst | api/models/courses.js:7-49 | once an empty-text message is listed, only empty-text messages follow |
| CourseModel.ToCourse | api/models/courses.js:7-49 | a valid instance is stored with its non-blank title and description, its userId, each given optional attribute's value, and NULL for each missing or null optional attribute |
| CourseModel.Merge | routes.js:136 | `course.update(body)` replaces each attribute the body mentions, null included, and keeps each attribute it omits |
| CourseModel.StoredCourseRoundTrip | api/models/courses.js:7-38 | a valid stored course passes validation as loaded and saves back unchanged, so an update with an empty body changes nothing |
| CourseModel.OptionalFieldsNeverRejected | api/models/courses.js:31-38 | estimatedTime and materialsNeeded never change the message list, whatever they hold, null included |
| CourseModel.UpdateChecksOnlyGivenFields | routes.js:136 | for a valid stored course, validating only the attributes an update sets gives the same messages as validating the merged record |
| Database.FindById | api/models/courses.js:42-49 | looking up a course's owner by id finds a row of the table with that id, or reports that there is none |
| Database.SaveCourse | api/models/courses.js:42-49 | validation comes first; then an unknown userId is a foreign-key error; then the database's own report: a unique violation carries its messages and any other driver failure is an unclassified error; a saved course is valid and owned by an existing user |
| Database.SaveUpdate | routes.js:136 | `course.update(body)`: an update that changes no attribute yields the loaded row; otherwise the merged record is saved; a saved row carries exactly the merged attributes |
| Database.UnchangedUpdateIgnoresFault | api/routes/courses.js:126 | an update that changes no attribute sends no query, so it succeeds whatever the database would report |
| Database.SaveUser | routes.js:40 | validation comes first, then the database's report; a saved user takes the next id |
| Database.AddUserWellformed | api/models/users.js:67-74 | adding the next user keeps every course's owner reachable, so one user may keep owning many courses |
| Routes.SaveFailure | routes.js:113-121 | validation and unique-constraint errors become 400 with the message list; any other error becomes the 500 of `asyncHandler` |
| Routes.PostUser | routes.js:36-55 | 201 with `Location: /` iff the built user validates and the database accepts; the new row stores the hash of the password; 400 with the validator messages for an invalid user; any other save error gives 400 with its messages if it is a unique-constraint error and 500 otherwise; the store changes only on 201 |
| Routes.ListCourses | routes.js:58-73 | always 200, even for an empty table, listing exactly the stored courses |
| Routes.GetCourse | routes.js:76-100 | 404 with "doesn't exist" iff the id is absent; otherwise 200 with exactly the course's id, title, description, estimatedTime, materialsNeeded and userId, and an owner whose id is the userId |
| Routes.PostCourse | routes.js:103-124 | 201 iff the save succeeds, with `Location` naming the fresh id and the body's userId as owner, whoever the caller is; 400 with the messages for an invalid body or a unique-constraint error; 500 for a foreign-key or driver error; the store changes only on 201 |
| Routes.PutCourse | routes.js:127-157 | absent id gives 404 and ownership is not consulted; a non-owner gets 403; the owner gets 204 with the store unchanged for an update that changes nothing; otherwise a failing save gives the owner 400 with the messages of a validation or unique-constraint error and 500 for any other error, so only a non-owner gets 403; 204 iff owner and the update succeeds, and then only that course changes; otherwise the store is unchanged |
| Routes.DeleteCourse | routes.js:160-181 | absent gives 404, non-owner gives 403, a failing destroy gives 500, all with the store unchanged; 204 iff owner and destroy succeeds, removing exactly that id |
| RouteProperties.GetCourseHidesPassword | routes.js:79-92 | changing any user's stored password changes no GET /courses/:id answer: the owner projection carries no password |
| RouteProperties.GetCourseShowsOwner | routes.js:83-90 | in a well-formed store the projected owner is the public part of the owner's row |
| RouteProperties.ListingIncludesPassword | routes.js:61-66 | GET /courses includes each owner's full row, stored password hash included |
| RouteProperties.PostCourseAddsOne | routes.js:108-109 | a successful POST /courses adds exactly one course under an id not used before, and changes no user |
| RouteProperties.PostUserPreservesWellformed | routes.js:40-41 | POST /users keeps the store invariant |
| RouteProperties.PostCoursePreservesWellformed | routes.js:108-109 | POST /courses keeps the store invariant: the new course is valid and owned by an existing user |
| RouteProperties.PutCoursePreservesWellformed | routes.js:131-137 | PUT /courses/:id keeps the store invariant, even when the owner hands the course over |
| RouteProperties.DeleteCoursePreservesWellformed | routes.js:164-170 | DELETE /courses/:id keeps the store invariant |
| RouteProperties.DeleteTwice | routes.js:164-179 | the owner deleting a course twice gets 204 then 404, and the course then reads as missing |
| RouteProperties.PutThenGet | routes.js:131-137 | after a 204 PUT, the course reads back with the merged title and owner, and every other course reads back as before |
| ApiCourses.FindByEmail | api/routes/courses.js:25-28 | finds the first row with the given email address, or reports that no row has it |
| ApiCourses.Authenticate | api/routes/courses.js:21-49 | no credentials are refused without a lookup; an unknown address is refused iff no row has it; for the first row with the address, success iff the password verifies against the stored value or equals it verbatim, and then that row is the current user |
| ApiCourses.Gate | api/routes/courses.js:51-57 | the next handler runs iff authentication succeeded; every refusal gives the same 401 "Access Denied", whatever the reason |
| ApiCourses.GetCourse | api/routes/courses.js:77-92 | 404 "Course not available" iff the id is absent; otherwise 200 with the stored course, and in a well-formed store its owner's full row, password hash included |
| ApiCourses.PostCourse | api/routes/courses.js:95-115 | 201 with `Location` naming the fresh id iff the save succeeds; 400 for validation and unique-constraint errors; a foreign-key error or driver failure is handed on; the store changes only on 201 |
| ApiCourses.PutCourse | api/routes/courses.js:118-140 | absent id gives 404 "Not Found"; 204 with the store unchanged for an update that changes nothing; otherwise 204 iff the merged record saves, with no ownership comparison; 400 for validation errors, and every other save error, unique-constraint ones included, is handed on |
| ApiCourses.DeleteCourse | api/routes/courses.js:143-155 | absent id gives 404 "Not Found"; 204 iff the destroy succeeds, removing exactly that id, for any caller |
| ApiCourses.Handle | api/routes/courses.js:94-155 | GET is public; a mutating request gets 401 iff its credentials are refused, and then the store is unchanged; once they are accepted, the request reaches its handler unchanged |
| ApiProperties.StoredHashAuthenticates | api/routes/courses.js:30-32 | sending the stored password value itself as the password authenticates, through the plaintext fallback |
| ApiProperties.NoCredentialsNoLookup | api/routes/courses.js:23-24 | without credentials, a mutating request gets 401 "Access Denied" whatever the user table holds |
| ApiProperties.RefusalsLookAlike | api/routes/courses.js:52-54 | any two refused mutating requests get identical responses |
| ApiProperties.MutationsIgnoreOwnership | api/routes/courses.js:118-155 | any authenticated caller deletes any existing course with 204, and updates it with 204 whenever the update succeeds |
| ApiProperties.RoutersDisagreeOnForeignCaller | api/routes/courses.js:143-155 | for a caller who does not own the course, routes.js answers DELETE with 403 while this router deletes it with 204 |
| ApiProperties.UniqueViolationHandledDifferently | api/routes/courses.js:131-137 | for an update that changes something, a unique-constraint error is handed on by this router's PUT, but answered 400 by its POST and by the PUT of routes.js |
| ApiProperties.UnchangedUpdateAlwaysSucceeds | routes.js:131-137 | an owner's update that changes nothing gets 204 from both routers with the store unchanged, whatever the database would report |
| ApiProperties.DeleteTwice | api/routes/courses.js:147-153 | an authenticated caller deleting a course twice gets 204 then 404 |
| ApiProperties.CreateThenShow | api/routes/courses.js:77-115 | in the model, where eager loading is taken to succeed (see Left out), a course created through the router reads back, for any reader, with 200 and the saved record at the id its `Location` header names |
| ApiProperties.HandlePreservesWellformed | api/routes/courses.js:94-155 | every request through this router keeps the store invariant |
| Scenarios.SignUpThenAuthenticate | api/models/users.js:48-52 | a sign-up with non-blank names and address and any truthy password p stores the hash of p, and signing in with p resolves to the new row, provided the address was not taken |
| Scenarios.TakenEmailShadowsSignUp | api/models/users.js:33-44 | signing up with a taken address changes no sign-in outcome for that address |
| Scenarios.OtherUserCannotUpdate | routes.js:131-152 | after user X creates a course owned by X, user Y's PUT on it gets 403 and leaves the store unchanged |
| Scenarios.MissingTitleRejected | routes.js:108-118 | a course body without a title gets 400 with "Please include a Title" in the list, and nothing is inserted |

## Left out

- Express routing, middleware chaining, `req`/`res` objects and header serialisation: these are framework plumbing. Responses are plain values.
- The `authenticateUser` that routes.js imports from `./middleware/auth-user` (routes.js:6): that file is not part of this model. Handlers take `currentUser` as a parameter.
- GET /users (routes.js:26-33): it only echoes the `currentUser` set by that middleware.
- GET / of the api router (api/routes/courses.js:61-74): not modelled. It asks for the same mismatched alias `User` as GET /:id, so the ORM rejects the include and the error is handed on.
- ApiCourses.GetCourse: eager loading of owners is modelled as succeeding, although the api router asks for the alias `User` while the association declares `user` (api/models/courses.js:44). The ORM rejects a mismatched alias. The model follows the handlers' visible branches instead of that ORM behaviour.
- Query execution and SQL: the store is a sequence of users and a map of courses.
- `findOne` without an ORDER BY returns the first row in id order here. The actual row order is up to the database.
- Course ids in URL paths are integers. Parsing the path string is not modelled.
- Decimal.NatToString: ids are unbounded naturals. JavaScript numbers lose precision above 2^53 and a template literal writes ids of 10^21 and above in exponent form; neither is modelled.
- Timestamps (`createdAt`, `updatedAt`) are not modelled.
- bcrypt and bcryptjs internals, including salting and the cost factor 10: the hasher is a parameter with the `Sound` assumption.
- Basic header parsing and base64: credentials arrive as `Option<Credentials>`.
- Logging with `console.log`/`console.warn`: it has no effect on responses.
- The read-then-write race between `findByPk` and `update`/`destroy`: handlers run one at a time.
- Unique-constraint errors: the schema declares no unique attribute, so only a client-supplied primary key could cause one. They come in through the `DbFault` input, and bodies carry no `id`.
- Enforcement of the course-to-user foreign key is assumed of the database. The database configuration is not part of this model.
- Attribute values other than strings and integers, such as numbers given for text attributes or objects, are not modelled.
- The content of every 500 body: it becomes `ServerFault`. This includes the `ReferenceError` that the undefined `next` at routes.js:147 throws. `asyncHandler` answers that error with 500 as well.
- The React client (client/src): it is user interface code with no server logic.

=== FILE: api_courses.dfy ===
/** The course router of api/routes/courses.js: its own `authenticateUser`
    middleware (Basic credentials checked against the user table) and
    course handlers that check existence but never ownership. Errors that
    escape a handler are handed on with `next(error)`. */
module ApiCourses {
  import opened Base
  import opened Decimal
  import opened UserModel
  import opened CourseModel
  import opened Database
  import opened Http

  const AccessDenied := "Access Denied"
  const CourseUnavailable := "Course not available"
  /** The text `res.sendStatus(404)` sends. */
  const NotFoundText := "Not Found"

  /** The pair the Basic `Authorization` header carries. */
  datatype Credentials = Credentials(name: string, pass: string)

  /** Why a request was refused; only the server log tells these apart. */
  datatype DenyReason = NoHeader | UnknownUser(name: string) | WrongPassword(emailAddress: string)

  datatype AuthDecision = Denied(reason: DenyReason) | Proceed(currentUser: User)

  /** `k` is the row `findOne({where: {emailAddress}})` returns: the first
      one, in id order, with that address (the column is not unique). */
  ghost predicate FirstWithEmail(users: seq<User>, k: int, email: string) {
    && 0 <= k < |users|
    && users[k].emailAddress == email
    && forall j :: 0 <= j < k ==> users[j].emailAddress != email
  }

  /** `User.findOne` by email address. */
  function FindByEmail(users: seq<User>, email: string): (r: Option<nat>)
    ensures r.Some? ==> FirstWithEmail(users, r.value, email)
    ensures r.None? ==> forall j :: 0 <= j < |users| ==> users[j].emailAddress != email
  {
    if |users| == 0 then None
    else if users[0].emailAddress == email then Some(0)
    else match FindByEmail(users[1..], email)
      case None => None
      case Some(k) => Some(k + 1)
  }

  /** The credential decision of `authenticateUser`: no header, no user with
      that address, or a password that neither verifies against the stored
      hash nor equals the stored value verbatim, each refuse; otherwise the
      first user with that address becomes the current user. */
  function Authenticate(creds: Option<Credentials>, users: seq<User>, h: Hasher): (d: AuthDecision)
    ensures creds.None? ==> d == Denied(NoHeader)
    ensures d.Denied? && d.reason.UnknownUser? <==>
              creds.Some? && forall j :: 0 <= j < |users| ==> users[j].emailAddress != creds.value.name
    ensures forall k :: creds.Some? && FirstWithEmail(users, k, creds.value.name) ==>
              if h.verifies(creds.value.pass, users[k].password) || creds.value.pass == users[k].password
              then d == Proceed(users[k])
              else d == Denied(WrongPassword(users[k].emailAddress))
    ensures d.Proceed? ==> creds.Some? && d.currentUser in users
  {
    match creds
    case None => Denied(NoHeader)
    case Some(Credentials(name, pass)) =>
      match FindByEmail(users, name)
      case None => Denied(UnknownUser(name))
      case Some(k) =>
        var user := users[k];
        if h.verifies(pass, user.password) || pass == user.password then Proceed(user)
        else Denied(WrongPassword(user.emailAddress))
  }

  /** The tail of `authenticateUser`: a refusal of any kind answers the same
      401 reply and stops; success (`None`) calls the next handler. */
  function Gate(d: AuthDecision): (r: Option<Response>)
    ensures r.None? <==> d.Proceed?
    ensures r.Some? ==> r.value == Reply(401, Message(AccessDenied), None)
  {
    if d.Denied? then Some(Reply(401, Message(AccessDenied), None)) else None
  }

  /** GET /:id: the course with its full owner row, or 404. */
  function GetCourse(id: int, s: Store): (r: Response)
    ensures id !in s.courses <==> r == Reply(404, Message(CourseUnavailable), None)
    ensures id in s.courses ==>
              && r.Is(200) && r.body.Record? && r.body.id == id && r.body.course == s.courses[id]
              && (r.body.user.Some? ==> r.body.user.value.id == s.courses[id].userId)
    ensures Wellformed(s) && id in s.courses ==>
              && 1 <= s.courses[id].userId <= |s.users|
              && r.body.user == Some(s.users[s.courses[id].userId - 1])
  {
    if id in s.courses then
      Reply(200, Record(id, s.courses[id], FindById(s.users, s.courses[id].userId)), None)
    else
      Reply(404, Message(CourseUnavailable), None)
  }

  /** POST /: like routes.js, validation and unique-constraint errors answer
      400; anything else is handed on. */
  function PostCourse(body: CourseFields, s: Store, fault: DbFault): (o: Outcome)
    ensures o.response.Is(201) <==> SaveCourse(body, s, fault).Ok?
    ensures o.response.Is(201) ==>
              && o.response == Reply(201, NoContent, Some(CourseLocation(s.nextCourseId)))
              && o.store == s.(courses := s.courses[s.nextCourseId := ToCourse(body)],
                               nextCourseId := s.nextCourseId + 1)
    ensures CourseErrors(body) != [] ==> o == Outcome(Reply(400, Errors(CourseErrors(body)), None), s)
    ensures CourseErrors(body) == [] && HasUser(s, body.userId.v) && fault.UniqueViolation? ==>
              o == Outcome(Reply(400, Errors(fault.messages), None), s)
    ensures SaveCourse(body, s, fault) == Err(ForeignKeyError) ==> o == Outcome(Forwarded(ForeignKeyError), s)
    ensures SaveCourse(body, s, fault) == Err(OtherError) ==> o == Outcome(Forwarded(OtherError), s)
    ensures !o.response.Is(201) ==> o.store == s
    ensures o.response.Reply? ==> o.response.status in {201, 400}
  {
    match SaveCourse(body, s, fault)
    case Ok(c) =>
      var id := s.nextCourseId;
      Outcome(Reply(201, NoContent, Some(CourseLocation(id))),
              s.(courses := s.courses[id := c], nextCourseId := id + 1))
    case Err(ValidationError(m)) => Outcome(Reply(400, Errors(m), None), s)
    case Err(UniqueConstraintError(m)) => Outcome(Reply(400, Errors(m), None), s)
    case Err(e) => Outcome(Forwarded(e), s)
  }

  /** PUT /:id: existence, then the update, for any caller. Only a
      validation error answers 400; a unique-constraint error is handed on. */
  function PutCourse(id: int, body: CourseFields, s: Store, fault: DbFault): (o: Outcome)
    ensures id !in s.courses ==> o == Outcome(Reply(404, StatusText(NotFoundText), None), s)
    ensures o.response.Is(204) <==> id in s.courses && SaveUpdate(s.courses[id], body, s, fault).Ok?
    ensures o.response.Is(204) ==>
              && o.response == Reply(204, NoContent, None)
              && o.store == s.(courses := s.courses[id := SaveUpdate(s.courses[id], body, s, fault).value])
    ensures id in s.courses && Merge(s.courses[id], body) == FieldsOf(s.courses[id]) ==>
              o == Outcome(Reply(204, NoContent, None), s)
    ensures id in s.courses && Merge(s.courses[id], body) != FieldsOf(s.courses[id])
            && CourseErrors(Merge(s.courses[id], body)) != [] ==>
              o == Outcome(Reply(400, Errors(CourseErrors(Merge(s.courses[id], body))), None), s)
    ensures id in s.courses && fault.UniqueViolation? ==>
              var f := Merge(s.courses[id], body);
              f != FieldsOf(s.courses[id]) && CourseErrors(f) == [] && HasUser(s, f.userId.v) ==>
                o == Outcome(Forwarded(UniqueConstraintError(fault.messages)), s)
    ensures id in s.courses && SaveUpdate(s.courses[id], body, s, fault).Err?
            && !SaveUpdate(s.courses[id], body, s, fault).error.ValidationError? ==>
              o == Outcome(Forwarded(SaveUpdate(s.courses[id], body, s, fault).error), s)
    ensures !o.response.Is(204) ==> o.store == s
    ensures o.response.Reply? ==> o.response.status in {204, 400, 404}
  {
    if id in s.courses then
      match SaveUpdate(s.courses[id], body, s, fault)
      case Ok(c) => Outcome(Reply(204, NoContent, None), s.(courses := s.courses[id := c]))
      case Err(ValidationError(m)) => Outcome(Reply(400, Errors(m), None), s)
      case Err(e) => Outcome(Forwarded(e), s)
    else
      Outcome(Reply(404, StatusText(NotFoundText), None), s)
  }

  /** DELETE /:id: existence, then `destroy`, for any caller. */
  function DeleteCourse(id: int, s: Store, fault: DbFault): (o: Outcome)
    ensures id !in s.courses ==> o == Outcome(Reply(404, StatusText(NotFoundText), None), s)
    ensures o.response.Is(204) <==> id in s.courses && fault.Clean?
    ensures o.response.Is(204) ==> o == Outcome(Reply(204, NoContent, None), s.(courses := s.courses - {id}))
    ensures id in s.courses && !fault.Clean? ==> o == Outcome(Forwarded(OtherError), s)
    ensures !o.response.Is(204) ==> o.store == s
  {
    if id !in s.courses then Outcome(Reply(404, StatusText(NotFoundText), None), s)
    else if fault.Clean? then Outcome(Reply(204, NoContent, None), s.(courses := s.courses - {id}))
    else Outcome(Forwarded(OtherError), s)
  }

  /** The requests this router serves. */
  datatype Request =
    | ShowCourse(id: int)
    | CreateCourse(body: CourseFields)
    | UpdateCourse(id: int, body: CourseFields)
    | DestroyCourse(id: int)

  function Dispatch(req: Request, s: Store, fault: DbFault): (o: Outcome)
    ensures req.ShowCourse? ==> o.store == s
    ensures req.CreateCourse? ==> o == PostCourse(req.body, s, fault)
    ensures req.UpdateCourse? ==> o == PutCourse(req.id, req.body, s, fault)
    ensures req.DestroyCourse? ==> o == DeleteCourse(req.id, s, fault)
  {
    match req
    case ShowCourse(id) => Outcome(GetCourse(id, s), s)
    case CreateCourse(body) => PostCourse(body, s, fault)
    case UpdateCourse(id, body) => PutCourse(id, body, s, fault)
    case DestroyCourse(id) => DeleteCourse(id, s, fault)
  }

  /** A request through the router: reads are public, the three mutating
      routes pass `authenticateUser` first. A mutating request is answered
      401 exactly when its credentials are refused, and then nothing
      changes. */
  function Handle(creds: Option<Credentials>, req: Request, h: Hasher, s: Store, fault: DbFault): (o: Outcome)
    ensures req.ShowCourse? ==> o == Outcome(GetCourse(req.id, s), s) && !o.response.Is(401)
    ensures !req.ShowCourse? ==>
              (o.response.Is(401) <==> Authenticate(creds, s.users, h).Denied?)
    ensures !req.ShowCourse? && Authenticate(creds, s.users, h).Denied? ==>
              o == Outcome(Reply(401, Message(AccessDenied), None), s)
    ensures !req.ShowCourse? && Authenticate(creds, s.users, h).Proceed? ==> o == Dispatch(req, s, fault)
  {
    if req.ShowCourse? then Dispatch(req, s, fault)
    else match Gate(Authenticate(creds, s.users, h))
      case Some(refusal) => Outcome(refusal, s)
      case None => Dispatch(req, s, fault)
  }
}

=== FILE: api_properties.dfy ===
/** Properties of the api/routes/courses.js router: the credential check,
    the missing ownership guard, and how it differs from routes.js. */
module ApiProperties {
  import opened Base
  import opened Decimal
  import opened UserModel
  import opened CourseModel
  import opened Database
  import opened Http
  import opened ApiCourses
  import Routes

  /** Because of the plaintext fallback, sending the stored hash itself as
      the password authenticates, whatever bcrypt does. */
  lemma StoredHashAuthenticates(users: seq<User>, k: int, h: Hasher)
    requires 0 <= k < |users|
    requires FirstWithEmail(users, k, users[k].emailAddress)
    ensures Authenticate(Some(Credentials(users[k].emailAddress, users[k].password)), users, h) == Proceed(users[k])
  {
  }

  /** No credentials: refused before any lookup, so the answer does not
      depend on the user table at all. */
  lemma NoCredentialsNoLookup(req: Request, h: Hasher, s1: Store, s2: Store, fault: DbFault)
    requires !req.ShowCourse?
    ensures Handle(None, req, h, s1, fault).response == Handle(None, req, h, s2, fault).response
    ensures Handle(None, req, h, s1, fault).response == Reply(401, Message(AccessDenied), None)
  {
  }

  /** Every refusal looks the same to the client, whatever its reason. */
  lemma RefusalsLookAlike(c1: Option<Credentials>, c2: Option<Credentials>, r1: Request, r2: Request,
                          h: Hasher, s1: Store, s2: Store, f1: DbFault, f2: DbFault)
    requires !r1.ShowCourse? && !r2.ShowCourse?
    requires Authenticate(c1, s1.users, h).Denied? && Authenticate(c2, s2.users, h).Denied?
    ensures Handle(c1, r1, h, s1, f1).response == Handle(c2, r2, h, s2, f2).response
  {
  }

  /** Any authenticated caller may update or delete any existing course:
      nothing compares the caller with the owner. */
  lemma MutationsIgnoreOwnership(creds: Option<Credentials>, id: int, body: CourseFields, h: Hasher, s: Store)
    requires Authenticate(creds, s.users, h).Proceed?
    requires id in s.courses
    ensures Handle(creds, DestroyCourse(id), h, s, Clean)
            == Outcome(Reply(204, NoContent, None), s.(courses := s.courses - {id}))
    ensures SaveUpdate(s.courses[id], body, s, Clean).Ok? ==>
              Handle(creds, UpdateCourse(id, body), h, s, Clean).response == Reply(204, NoContent, None)
  {
  }

  /** Where the two routers part ways: a caller who does not own the course
      is refused by routes.js and obeyed by this router. */
  lemma RoutersDisagreeOnForeignCaller(creds: Option<Credentials>, id: int, h: Hasher, s: Store)
    requires Authenticate(creds, s.users, h).Proceed?
    requires id in s.courses
    requires s.courses[id].userId != Authenticate(creds, s.users, h).currentUser.id
    ensures Routes.DeleteCourse(Authenticate(creds, s.users, h).currentUser, id, s, Clean).response.Is(403)
    ensures Handle(creds, DestroyCourse(id), h, s, Clean).response.Is(204)
  {
  }

  /** A unique-constraint error on PUT is handed on here, while POST here
      and PUT in routes.js answer it with 400. */
  lemma UniqueViolationHandledDifferently(u: User, id: int, body: CourseFields, s: Store, m: seq<string>)
    requires id in s.courses && s.courses[id].userId == u.id
    requires Merge(s.courses[id], body) != FieldsOf(s.courses[id])
    requires CourseErrors(Merge(s.courses[id], body)) == []
    requires HasUser(s, Merge(s.courses[id], body).userId.v)
    ensures PutCourse(id, body, s, UniqueViolation(m)).response == Forwarded(UniqueConstraintError(m))
    ensures PostCourse(Merge(s.courses[id], body), s, UniqueViolation(m)).response == Reply(400, Errors(m), None)
    ensures Routes.PutCourse(u, id, body, s, UniqueViolation(m)).response == Reply(400, Errors(m), None)
  {
  }

  /** An update that changes nothing sends no query: both routers answer
      its owner 204 and keep the store, whatever the database would report. */
  lemma UnchangedUpdateAlwaysSucceeds(u: User, id: int, body: CourseFields, s: Store, fault: DbFault)
    requires id in s.courses && s.courses[id].userId == u.id
    requires Merge(s.courses[id], body) == FieldsOf(s.courses[id])
    ensures Routes.PutCourse(u, id, body, s, fault) == Outcome(Reply(204, NoContent, None), s)
    ensures PutCourse(id, body, s, fault) == Outcome(Reply(204, NoContent, None), s)
  {
  }

  /** Deleting the same course twice gives 204, then 404. */
  lemma DeleteTwice(creds: Option<Credentials>, id: int, h: Hasher, s: Store, f2: DbFault)
    requires Authenticate(creds, s.users, h).Proceed?
    requires id in s.courses
    ensures Handle(creds, DestroyCourse(id), h, s, Clean).response == Reply(204, NoContent, None)
    ensures Handle(creds, DestroyCourse(id), h, Handle(creds, DestroyCourse(id), h, s, Clean).store, f2).response
            == Reply(404, StatusText(NotFoundText), None)
  {
  }

  /** Every request through this router keeps the store well formed. */
  lemma HandlePreservesWellformed(creds: Option<Credentials>, req: Request, h: Hasher, s: Store, fault: DbFault)
    requires Wellformed(s)
    ensures Wellformed(Handle(creds, req, h, s, fault).store)
  {
  }

  /** A course created through the router can be read back, by anyone, at
      the id its `Location` header names, exactly as it was saved. */
  lemma {:induction false} CreateThenShow(creds: Option<Credentials>, reader: Option<Credentials>,
                                          body: CourseFields, h: Hasher, s: Store)
    requires Authenticate(creds, s.users, h).Proceed?
    requires SaveCourse(body, s, Clean).Ok?
    ensures var o := Handle(creds, CreateCourse(body), h, s, Clean);
            && o.response.Is(201) && o.response.location.Some?
            && var loc := o.response.location.value;
            && |loc| > 9 && AllDigits(loc[9..])
            && var shown := Handle(reader, ShowCourse(ParseDigits(loc[9..])), h, o.store, Clean).response;
            && shown.Is(200) && shown.body.Record?
            && shown.body.course == ToCourse(body)
  {
    var o := Handle(creds, CreateCourse(body), h, s, Clean);
    var digits := NatToString(s.nextCourseId);
    assert o.response.location == Some("/courses/" + digits);
    assert o.response.location.value[9..] == digits;
    ParseNatToString(s.nextCourseId);
  }
}

=== FILE: base.dfy ===
/** Shared vocabulary of the model: optional values, results, the three
    states a JSON attribute can be in, and the notNull/notEmpty rule pair
    that every required model attribute declares. */
module Base {

  datatype Option<+T> = None | Some(value: T)

  datatype Result<+T, +E> = Ok(value: T) | Err(error: E)

  /** An attribute of a request body or of a model instance: missing
      (`undefined`), explicitly `null`, or holding a value. */
  datatype Value<+T> = Absent | Null | Present(v: T) {

    /** Both a missing and a null attribute trip an `allowNull: false` column. */
    predicate IsNullish() {
      !Present?
    }
  }

  /** JavaScript truthiness of a string-valued attribute: given and non-empty. */
  predicate Truthy(v: Value<string>) {
    v.Present? && v.v != ""
  }

  /** A character JavaScript's `\s` matches. */
  predicate IsJsSpace(c: char) {
    var n := c as int;
    || 0x09 <= n <= 0x0D || n == 0x20 || n == 0xA0 || n == 0x1680
    || 0x2000 <= n <= 0x200A || n == 0x2028 || n == 0x2029 || n == 0x202F
    || n == 0x205F || n == 0x3000 || n == 0xFEFF
  }

  /** What the ORM's `notEmpty` validator rejects: a string that is empty or
      made only of whitespace. */
  predicate Blank(s: string) {
    forall i :: 0 <= i < |s| ==> IsJsSpace(s[i])
  }

  /** A required text attribute that passes both `notNull` and `notEmpty`. */
  predicate Filled(v: Value<string>) {
    v.Present? && !Blank(v.v)
  }

  /** The message an `allowNull: false` attribute reports while the ORM walks
      the attributes: its notNull message when it is missing or null. */
  function NullText<T>(v: Value<T>, nullMsg: string): (errs: seq<string>)
    ensures v.IsNullish() ==> errs == [nullMsg]
    ensures !v.IsNullish() ==> errs == []
  {
    if v.IsNullish() then [nullMsg] else []
  }

  /** The message a `notEmpty` validator reports once the attribute
      validators settle; they do not run on a null value. */
  function EmptyText(v: Value<string>, emptyMsg: string): (errs: seq<string>)
    ensures v.Present? && Blank(v.v) ==> errs == [emptyMsg]
    ensures !(v.Present? && Blank(v.v)) ==> errs == []
  {
    if v.Present? && Blank(v.v) then [emptyMsg] else []
  }

  /** A message list names each message at most once. */
  predicate NoRepeats(s: seq<string>) {
    forall i, j :: 0 <= i < j < |s| ==> s[i] != s[j]
  }

  /** A message list in strictly increasing `rank`: the order the messages
      are declared in, each at most once. */
  predicate Ascending(s: seq<string>, rank: string -> nat) {
    forall i, j :: 0 <= i < j < |s| ==> rank(s[i]) < rank(s[j])
  }

  /** Joining two ascending lists, the first wholly ranked below the second,
      gives an ascending list. */
  lemma AscendingAppend(a: seq<string>, b: seq<string>, rank: string -> nat)
    requires Ascending(a, rank) && Ascending(b, rank)
    requires forall x, y :: x in a && y in b ==> rank(x) < rank(y)
    ensures Ascending(a + b, rank)
  {
    forall i, j | 0 <= i < j < |a + b|
      ensures rank((a + b)[i]) < rank((a + b)[j])
    {
      if i < |a| && |a| <= j {
        assert (a + b)[i] in a && (a + b)[j] in b;
      } else if |a| <= i {
        assert (a + b)[i] == b[i - |a|] && (a + b)[j] == b[j - |a|];
      }
    }
  }

  /** Joining two ascending groups, every rank of the first below `bound`
      and every rank of the second at least `bound`: the result is ascending
      and so names each message at most once. */
  lemma JoinGroups(first: seq<string>, second: seq<string>, rank: string -> nat, bound: nat)
    requires Ascending(first, rank) && Ascending(second, rank)
    requires forall m :: m in first ==> rank(m) < bound
    requires forall m :: m in second ==> bound <= rank(m)
    ensures Ascending(first + second, rank)
    ensures NoRepeats(first + second)
  {
    AscendingAppend(first, second, rank);
  }

  /** Appending one more rule outcome, empty or its own message ranked
      above everything already listed, keeps the list ascending. */
  lemma AddPiece(p: seq<string>, c: seq<string>, mc: string, rank: string -> nat)
    requires Ascending(p, rank)
    requires c == [] || c == [mc]
    requires forall m :: m in p ==> rank(m) < rank(mc)
    ensures Ascending(p + c, rank)
    ensures mc in p + c <==> c == [mc]
    ensures forall m :: m in p + c ==> m in p || m == mc
  {
    AscendingAppend(p, c, rank);
  }

  /** Three rule outcomes, each empty or its own message, joined: the
      result lists the failing rules' messages in rank order, and a message
      is listed exactly when its own rule failed. */
  lemma PiecesAscending3(a: seq<string>, b: seq<string>, c: seq<string>,
                         ma: string, mb: string, mc: string, rank: string -> nat)
    requires a == [] || a == [ma]
    requires b == [] || b == [mb]
    requires c == [] || c == [mc]
    requires rank(ma) < rank(mb) < rank(mc)
    ensures Ascending(a + b + c, rank)
    ensures ma in a + b + c <==> a == [ma]
    ensures mb in a + b + c <==> b == [mb]
    ensures mc in a + b + c <==> c == [mc]
    ensures forall m :: m in a + b + c ==> m == ma || m == mb || m == mc
  {
    AddPiece(a, b, mb, rank);
    AddPiece(a + b, c, mc, rank);
  }

  /** The same for four rule outcomes. */
  lemma PiecesAscending4(a: seq<string>, b: seq<string>, c: seq<string>, d: seq<string>,
                         ma: string, mb: string, mc: string, md: string, rank: string -> nat)
    requires a == [] || a == [ma]
    requires b == [] || b == [mb]
    requires c == [] || c == [mc]
    requires d == [] || d == [md]
    requires rank(ma) < rank(mb) < rank(mc) < rank(md)
    ensures Ascending(a + b + c + d, rank)
    ensures ma in a + b + c + d <==> a == [ma]
    ensures mb in a + b + c + d <==> b == [mb]
    ensures mc in a + b + c + d <==> c == [mc]
    ensures md in a + b + c + d <==> d == [md]
    ensures forall m :: m in a + b + c + d ==> m == ma || m == mb || m == mc || m == md
  {
    PiecesAscending3(a, b, c, ma, mb, mc, rank);
    AddPiece(a + b + c, d, md, rank);
  }

  /** A required attribute fails at most one of its two rules. */
  lemma FieldReportsOnce(v: Value<string>, nullMsg: string, emptyMsg: string)
    ensures |NullText(v, nullMsg)| + |EmptyText(v, emptyMsg)| <= 1
  {
  }
}

=== FILE: course_model.dfy ===
/** The Course model of api/models/courses.js: two required text attributes,
    two nullable ones, and the non-null `userId` foreign key added by
    `belongsTo(User)`. */
module CourseModel {
  import opened Base

  /** A row of the Courses table (timestamps are not modelled). */
  datatype Course = Course(
    title: string,
    description: string,
    estimatedTime: Option<string>,
    materialsNeeded: Option<string>,
    userId: int)

  /** The attributes of a Course instance before it is saved; also the shape
      of a POST or PUT course body. */
  datatype CourseFields = CourseFields(
    title: Value<string>,
    description: Value<string>,
    estimatedTime: Value<string>,
    materialsNeeded: Value<string>,
    userId: Value<int>)

  const TitleNull := "Please include a Title"
  const TitleEmpty := "Please enter a Title"
  const DescriptionNull := "Please include a Description"
  const DescriptionEmpty := "Please enter a Description"
  /** The ORM's default notNull message; the association declares none of its own. */
  const UserIdNull := "Course.userId cannot be null"

  /** The notEmpty messages. */
  const CourseEmptyMessages := {TitleEmpty, DescriptionEmpty}

  /** The notNull messages. */
  const CourseNullMessages := {TitleNull, DescriptionNull, UserIdNull}

  /** Where a message stands in a report: the notNull messages in attribute
      order (`userId` last), then the notEmpty ones; anything else last. */
  function CourseRank(m: string): nat {
    if m == TitleNull then 0 else if m == DescriptionNull then 1
    else if m == UserIdNull then 2 else if m == TitleEmpty then 3
    else if m == DescriptionEmpty then 4 else 5
  }

  /** The five messages are ranked in report order. */
  lemma CourseRanksInOrder()
    ensures CourseRank(TitleNull) == 0 && CourseRank(DescriptionNull) == 1 && CourseRank(UserIdNull) == 2
    ensures CourseRank(TitleEmpty) == 3 && CourseRank(DescriptionEmpty) == 4
  {
  }

  predicate ValidFields(f: CourseFields) {
    Filled(f.title) && Filled(f.description) && f.userId.Present?
  }

  /** The notNull failures, reported while the ORM walks the attributes;
      `userId`, added by the association, comes after the declared ones. */
  function CourseNullErrors(f: CourseFields): (errs: seq<string>)
    ensures forall m :: m in errs ==> m in CourseNullMessages
    ensures TitleNull in errs <==> f.title.IsNullish()
    ensures DescriptionNull in errs <==> f.description.IsNullish()
    ensures UserIdNull in errs <==> f.userId.IsNullish()
    ensures Ascending(errs, CourseRank)
    ensures forall m :: m in errs ==> CourseRank(m) < 3
  {
    var a, b, c := NullText(f.title, TitleNull), NullText(f.description, DescriptionNull), NullText(f.userId, UserIdNull);
    CourseRanksInOrder();
    PiecesAscending3(a, b, c, TitleNull, DescriptionNull, UserIdNull, CourseRank);
    a + b + c
  }

  /** The notEmpty failures, reported once the attribute validators settle. */
  function CourseEmptyErrors(f: CourseFields): (errs: seq<string>)
    ensures forall m :: m in errs ==> m in CourseEmptyMessages
    ensures TitleEmpty in errs <==> f.title.Present? && Blank(f.title.v)
    ensures DescriptionEmpty in errs <==> f.description.Present? && Blank(f.description.v)
    ensures Ascending(errs, CourseRank)
    ensures forall m :: m in errs ==> 3 <= CourseRank(m)
  {
    var a, b := EmptyText(f.title, TitleEmpty), EmptyText(f.description, DescriptionEmpty);
    CourseRanksInOrder();
    AddPiece(a, b, DescriptionEmpty, CourseRank);
    a + b
  }

  /** The validation messages of a Course instance: every notNull failure,
      then every notEmpty failure, each group in attribute order. */
  function CourseErrors(f: CourseFields): (errs: seq<string>)
    ensures errs == [] <==> ValidFields(f)
    ensures |errs| <= 3
    ensures TitleNull in errs <==> f.title.IsNullish()
    ensures TitleEmpty in errs <==> f.title.Present? && Blank(f.title.v)
    ensures DescriptionNull in errs <==> f.description.IsNullish()
    ensures DescriptionEmpty in errs <==> f.description.Present? && Blank(f.description.v)
    ensures UserIdNull in errs <==> f.userId.IsNullish()
    ensures forall m :: m in errs ==> m in CourseNullMessages + CourseEmptyMessages
    ensures Ascending(errs, CourseRank)
    ensures NoRepeats(errs)
  {
    var nulls, empties := CourseNullErrors(f), CourseEmptyErrors(f);
    assert CourseNullMessages !! CourseEmptyMessages;
    JoinGroups(nulls, empties, CourseRank, 3);
    FieldReportsOnce(f.title, TitleNull, TitleEmpty);
    FieldReportsOnce(f.description, DescriptionNull, DescriptionEmpty);
    nulls + empties
  }

  /** Once a notEmpty message is reported, only notEmpty messages follow. */
  lemma CourseNullsFirst(f: CourseFields)
    ensures var errs := CourseErrors(f);
            forall i, j :: 0 <= i < j < |errs| && errs[i] in CourseEmptyMessages ==> errs[j] in CourseEmptyMessages
  {
    var errs := CourseErrors(f);
    CourseRanksInOrder();
    forall i, j | 0 <= i < j < |errs| && errs[i] in CourseEmptyMessages
      ensures errs[j] in CourseEmptyMessages
    {
      assert 3 <= CourseRank(errs[i]) < CourseRank(errs[j]);
      assert errs[j] in CourseNullMessages + CourseEmptyMessages;
    }
  }

  /** What every stored course satisfies: the required texts are not blank. */
  predicate ValidCourse(c: Course) {
    !Blank(c.title) && !Blank(c.description)
  }

  function Nullable(v: Value<string>): (o: Option<string>)
    ensures o.Some? <==> v.Present?
    ensures o.Some? ==> o.value == v.v
  {
    if v.Present? then Some(v.v) else None
  }

  function FromNullable(o: Option<string>): (v: Value<string>)
    ensures Nullable(v) == o && !v.Absent?
  {
    if o.Some? then Present(o.value) else Null
  }

  /** The row a valid instance is saved as: null and missing optional
      attributes both become SQL NULL. */
  function ToCourse(f: CourseFields): (c: Course)
    requires CourseErrors(f) == []
    ensures ValidCourse(c)
    ensures Present(c.title) == f.title && Present(c.description) == f.description
    ensures Present(c.userId) == f.userId
    ensures c.estimatedTime.Some? <==> f.estimatedTime.Present?
    ensures f.estimatedTime.Present? ==> c.estimatedTime == Some(f.estimatedTime.v)
    ensures c.materialsNeeded.Some? <==> f.materialsNeeded.Present?
    ensures f.materialsNeeded.Present? ==> c.materialsNeeded == Some(f.materialsNeeded.v)
  {
    Course(f.title.v, f.description.v, Nullable(f.estimatedTime), Nullable(f.materialsNeeded), f.userId.v)
  }

  /** The attributes of a course loaded from the table. */
  function FieldsOf(c: Course): (f: CourseFields)
    ensures f.title == Present(c.title) && f.description == Present(c.description)
    ensures f.userId == Present(c.userId)
    ensures Nullable(f.estimatedTime) == c.estimatedTime && Nullable(f.materialsNeeded) == c.materialsNeeded
    ensures !f.estimatedTime.Absent? && !f.materialsNeeded.Absent?
  {
    CourseFields(Present(c.title), Present(c.description), FromNullable(c.estimatedTime),
                 FromNullable(c.materialsNeeded), Present(c.userId))
  }

  /** One attribute of an update: a mentioned value wins over the current one. */
  function Overlay<T>(given: Value<T>, current: Value<T>): (v: Value<T>)
    ensures given.Absent? ==> v == current
    ensures !given.Absent? ==> v == given
  {
    if given.Absent? then current else given
  }

  /** `course.update(body)`: every attribute the body mentions (even as null)
      replaces the loaded one; attributes it leaves out keep their value. */
  function Merge(c: Course, body: CourseFields): (f: CourseFields)
    ensures body.title.Absent? ==> f.title == Present(c.title)
    ensures !body.title.Absent? ==> f.title == body.title
    ensures body.description.Absent? ==> f.description == Present(c.description)
    ensures !body.description.Absent? ==> f.description == body.description
    ensures body.estimatedTime.Absent? ==> f.estimatedTime == FromNullable(c.estimatedTime)
    ensures !body.estimatedTime.Absent? ==> f.estimatedTime == body.estimatedTime
    ensures body.materialsNeeded.Absent? ==> f.materialsNeeded == FromNullable(c.materialsNeeded)
    ensures !body.materialsNeeded.Absent? ==> f.materialsNeeded == body.materialsNeeded
    ensures body.userId.Absent? ==> f.userId == Present(c.userId)
    ensures !body.userId.Absent? ==> f.userId == body.userId
  {
    var cur := FieldsOf(c);
    CourseFields(Overlay(body.title, cur.title), Overlay(body.description, cur.description),
                 Overlay(body.estimatedTime, cur.estimatedTime),
                 Overlay(body.materialsNeeded, cur.materialsNeeded), Overlay(body.userId, cur.userId))
  }

  /** A body that mentions nothing. */
  const EmptyBody := CourseFields(Absent, Absent, Absent, Absent, Absent)

  /** A stored valid course passes validation as loaded and saves back to
      itself; an update with an empty body is therefore a no-op. */
  lemma StoredCourseRoundTrip(c: Course)
    requires ValidCourse(c)
    ensures CourseErrors(FieldsOf(c)) == []
    ensures ToCourse(FieldsOf(c)) == c
    ensures Merge(c, EmptyBody) == FieldsOf(c)
  {
  }

  /** The two nullable attributes never contribute a message, whatever they
      hold. */
  lemma OptionalFieldsNeverRejected(f: CourseFields, e: Value<string>, m: Value<string>)
    ensures CourseErrors(f.(estimatedTime := e, materialsNeeded := m)) == CourseErrors(f)
  {
  }

  /** The notNull failures of an update: only an attribute the body sets
      to null is checked; one it leaves out keeps its stored value. */
  function GivenNullErrors(body: CourseFields): (errs: seq<string>)
    ensures TitleNull in errs <==> body.title.Null?
    ensures DescriptionNull in errs <==> body.description.Null?
    ensures UserIdNull in errs <==> body.userId.Null?
    ensures forall m :: m in errs ==> CourseRank(m) < 3
  {
    var a := if body.title.Null? then [TitleNull] else [];
    var b := if body.description.Null? then [DescriptionNull] else [];
    var c := if body.userId.Null? then [UserIdNull] else [];
    CourseRanksInOrder();
    PiecesAscending3(a, b, c, TitleNull, DescriptionNull, UserIdNull, CourseRank);
    a + b + c
  }

  /** Validation the ORM runs on `update`: only the attributes the body sets. */
  function GivenFieldErrors(body: CourseFields): (errs: seq<string>)
    ensures TitleNull in errs <==> body.title.Null?
    ensures DescriptionNull in errs <==> body.description.Null?
    ensures UserIdNull in errs <==> body.userId.Null?
    ensures TitleEmpty in errs <==> body.title.Present? && Blank(body.title.v)
    ensures DescriptionEmpty in errs <==> body.description.Present? && Blank(body.description.v)
  {
    CourseRanksInOrder();
    GivenNullErrors(body) + CourseEmptyErrors(body)
  }

  /** For a valid stored course, validating only the attributes an update
      sets gives exactly the messages of validating the whole merged record,
      so the model may validate the merged record. */
  lemma UpdateChecksOnlyGivenFields(c: Course, body: CourseFields)
    requires ValidCourse(c)
    ensures CourseErrors(Merge(c, body)) == GivenFieldErrors(body)
  {
    var f := Merge(c, body);
    GivenTextChecked(body.title, c.title, TitleNull, TitleEmpty);
    GivenTextChecked(body.description, c.description, DescriptionNull, DescriptionEmpty);
    assert CourseNullErrors(f) == GivenNullErrors(body);
    assert CourseEmptyErrors(f) == CourseEmptyErrors(body);
  }

  /** An update attribute over a stored non-blank text reports only what the
      given value itself fails. */
  lemma GivenTextChecked(given: Value<string>, stored: string, nullMsg: string, emptyMsg: string)
    requires !Blank(stored)
    ensures NullText(Overlay(given, Present(stored)), nullMsg) == if given.Null? then [nullMsg] else []
    ensures EmptyText(Overlay(given, Present(stored)), emptyMsg) == EmptyText(given, emptyMsg)
  {
  }
}

=== FILE: database.dfy ===
/** The persistence layer as the handlers see it: a user table ordered by
    its auto-increment id, a course table keyed by id with the next id to
    hand out, the course-to-user foreign key, and what a save can report. */
module Database {
  import opened Base
  import opened UserModel
  import opened CourseModel

  datatype Store = Store(users: seq<User>, courses: map<int, Course>, nextCourseId: nat)

  /** What the database itself may report when a row that passed the model
      validators is written: nothing, a unique-constraint violation with its
      messages, or any other driver failure. It is an input of the model. */
  datatype DbFault = Clean | UniqueViolation(messages: seq<string>) | DriverFailure

  /** The error a failed save raises, by the ORM's error name. */
  datatype DbError =
    | ValidationError(messages: seq<string>)        // SequelizeValidationError
    | UniqueConstraintError(messages: seq<string>)  // SequelizeUniqueConstraintError
    | ForeignKeyError                               // the course's userId names no user
    | OtherError

  /** `User.findByPk(id)` over the user table. */
  function FindById(users: seq<User>, id: int): (r: Option<User>)
    ensures r.Some? ==> r.value in users && r.value.id == id
    ensures r.None? ==> forall k :: 0 <= k < |users| ==> users[k].id != id
  {
    if |users| == 0 then None
    else if users[0].id == id then Some(users[0])
    else FindById(users[1..], id)
  }

  predicate HasUser(s: Store, id: int) {
    FindById(s.users, id).Some?
  }

  /** Ids run 1, 2, 3, ... in table order (users are never deleted). */
  ghost predicate SequentialIds(users: seq<User>, base: int) {
    forall k :: 0 <= k < |users| ==> users[k].id == base + k
  }

  /** The store invariant: user ids are the auto-increment sequence, every
      course id was handed out before, and every course is valid and owned
      by an existing user (one user may own many courses). */
  ghost predicate Wellformed(s: Store) {
    && SequentialIds(s.users, 1)
    && (forall id :: id in s.courses ==> id < s.nextCourseId)
    && (forall id :: id in s.courses ==> ValidCourse(s.courses[id]) && HasUser(s, s.courses[id].userId))
  }

  /** Appending a row never hides a user that was already found. */
  lemma {:induction false} FindByIdAppend(users: seq<User>, u: User, id: int)
    requires FindById(users, id).Some?
    ensures FindById(users + [u], id) == FindById(users, id)
  {
    if users[0].id != id {
      assert (users + [u])[1..] == users[1..] + [u];
      FindByIdAppend(users[1..], u, id);
    }
  }

  /** `Course.create` / `instance.save()` of course attributes: the model
      validators run first, then the database checks the foreign key, then
      whatever else it may report. */
  function SaveCourse(f: CourseFields, s: Store, fault: DbFault): (r: Result<Course, DbError>)
    ensures CourseErrors(f) != [] ==> r == Err(ValidationError(CourseErrors(f)))
    ensures r == Err(ForeignKeyError) <==> CourseErrors(f) == [] && !HasUser(s, f.userId.v)
    ensures r.Ok? <==> CourseErrors(f) == [] && HasUser(s, f.userId.v) && fault.Clean?
    ensures r.Ok? ==> r.value == ToCourse(f) && ValidCourse(r.value) && HasUser(s, r.value.userId)
    ensures r.Err? && r.error.UniqueConstraintError? <==>
              CourseErrors(f) == [] && HasUser(s, f.userId.v) && fault.UniqueViolation?
    ensures r.Err? && r.error.UniqueConstraintError? ==> r.error.messages == fault.messages
    ensures CourseErrors(f) == [] && HasUser(s, f.userId.v) && fault.DriverFailure? ==> r == Err(OtherError)
  {
    var errs := CourseErrors(f);
    if errs != [] then Err(ValidationError(errs))
    else if !HasUser(s, f.userId.v) then Err(ForeignKeyError)
    else match fault
      case Clean => Ok(ToCourse(f))
      case UniqueViolation(m) => Err(UniqueConstraintError(m))
      case DriverFailure => Err(OtherError)
  }

  /** `course.update(body)` on a loaded course: the merged attributes are
      saved as by `SaveCourse`, except that an update that changes no
      attribute sends no query and yields the loaded row, whatever the
      database would have reported. */
  function SaveUpdate(c: Course, body: CourseFields, s: Store, fault: DbFault): (r: Result<Course, DbError>)
    ensures Merge(c, body) == FieldsOf(c) ==> r == Ok(c)
    ensures Merge(c, body) != FieldsOf(c) ==> r == SaveCourse(Merge(c, body), s, fault)
    ensures r.Ok? ==> FieldsOf(r.value) == Merge(c, body)
    ensures r.Ok? && CourseErrors(Merge(c, body)) == [] ==> r.value == ToCourse(Merge(c, body))
  {
    if Merge(c, body) == FieldsOf(c) then Ok(c) else SaveCourse(Merge(c, body), s, fault)
  }

  /** An update that changes nothing succeeds, and its outcome does not
      depend on the database at all. */
  lemma UnchangedUpdateIgnoresFault(c: Course, body: CourseFields, s: Store, f1: DbFault, f2: DbFault)
    requires Merge(c, body) == FieldsOf(c)
    ensures SaveUpdate(c, body, s, f1) == SaveUpdate(c, body, s, f2) == Ok(c)
  {
  }

  /** `User.create`: validators first, then whatever the database reports;
      the new row takes the next auto-increment id. */
  function SaveUser(f: UserFields, s: Store, fault: DbFault): (r: Result<User, DbError>)
    ensures UserErrors(f) != [] ==> r == Err(ValidationError(UserErrors(f)))
    ensures r.Ok? <==> UserErrors(f) == [] && fault.Clean?
    ensures r.Ok? ==> r.value == ToUser(|s.users| + 1, f)
    ensures UserErrors(f) == [] && fault.UniqueViolation? ==> r == Err(UniqueConstraintError(fault.messages))
    ensures UserErrors(f) == [] && fault.DriverFailure? ==> r == Err(OtherError)
  {
    var errs := UserErrors(f);
    if errs != [] then Err(ValidationError(errs))
    else match fault
      case Clean => Ok(ToUser(|s.users| + 1, f))
      case UniqueViolation(m) => Err(UniqueConstraintError(m))
      case DriverFailure => Err(OtherError)
  }

  /** Adding the next user keeps the store well formed. */
  lemma AddUserWellformed(s: Store, u: User)
    requires Wellformed(s)
    requires u.id == |s.users| + 1
    ensures Wellformed(s.(users := s.users + [u]))
  {
    var s' := s.(users := s.users + [u]);
    forall id | id in s'.courses
      ensures HasUser(s', s'.courses[id].userId)
    {
      FindByIdAppend(s.users, u, s.courses[id].userId);
    }
  }
}

=== FILE: decimal.dfy ===
/** Decimal rendering of record ids, as they appear in `Location` headers
    (`/courses/<id>`), with the parser that inverts it. */
module Decimal {

  predicate IsDigit(c: char) {
    '0' <= c <= '9'
  }

  predicate AllDigits(s: string) {
    forall i :: 0 <= i < |s| ==> IsDigit(s[i])
  }

  function DigitChar(d: nat): (c: char)
    requires d < 10
    ensures IsDigit(c)
  {
    (d + '0' as int) as char
  }

  function DigitValue(c: char): (d: nat)
    requires IsDigit(c)
    ensures d < 10
  {
    (c as int - '0' as int) as nat
  }

  /** The shortest decimal spelling of `n`. */
  function NatToString(n: nat): (s: string)
    ensures 1 <= |s|
    ensures AllDigits(s)
    ensures n < 10 <==> |s| == 1
  {
    if n < 10 then [DigitChar(n)] else NatToString(n / 10) + [DigitChar(n % 10)]
  }

  function ParseDigits(s: string): (n: nat)
    requires AllDigits(s)
    ensures |s| == 1 ==> n == DigitValue(s[0])
    ensures s != [] ==> n % 10 == DigitValue(s[|s| - 1])
  {
    if s == [] then 0 else ParseDigits(s[..|s| - 1]) * 10 + DigitValue(s[|s| - 1])
  }

  /** Parsing a rendered id gives the id back. */
  lemma {:induction false} ParseNatToString(n: nat)
    ensures ParseDigits(NatToString(n)) == n
  {
    var s := NatToString(n);
    if n < 10 {
      assert s[..0] == [];
    } else {
      var prefix := NatToString(n / 10);
      assert s == prefix + [DigitChar(n % 10)];
      assert s[..|s| - 1] == prefix;
      ParseNatToString(n / 10);
    }
  }

  /** Distinct ids are rendered as distinct strings, so distinct records get
      distinct `Location` headers. */
  lemma NatToStringInjective(m: nat, n: nat)
    requires m != n
    ensures NatToString(m) != NatToString(n)
  {
    ParseNatToString(m);
    ParseNatToString(n);
  }

  /** The `Location` of a created course: its id, spelled in decimal, under
      `/courses/`; the id can be read back from it. */
  function CourseLocation(id: nat): (path: string)
    ensures |path| > 9 && path[..9] == "/courses/"
    ensures var digits := path[9..]; AllDigits(digits) && ParseDigits(digits) == id
  {
    ParseNatToString(id);
    "/courses/" + NatToString(id)
  }
}

=== FILE: http.dfy ===
/** What a handler answers: a status, a JSON body and an optional
    `Location` header, or an error handed on with `next(error)` to the
    application's error handler, which is not part of this model. */
module Http {
  import opened Base
  import opened UserModel
  import opened CourseModel
  import opened Database

  /** The owner attributes routes.js lets GET /courses/:id show. */
  datatype PublicUser = PublicUser(id: int, firstName: string, lastName: string, emailAddress: string)

  /** The course attributes routes.js lets GET /courses/:id show, with the
      projected owner (null when the owner row is missing). */
  datatype CourseView = CourseView(
    id: int,
    title: string,
    description: string,
    estimatedTime: Option<string>,
    materialsNeeded: Option<string>,
    userId: int,
    user: Option<PublicUser>)

  /** One entry of a course list: the course row and its full owner row. */
  datatype Listing = Listing(course: Course, user: Option<User>)

  datatype Body =
    | NoContent
    | Message(message: string)                          // {"message": ...}
    | Errors(errors: seq<string>)                       // {"errors": [...]}
    | StatusText(text: string)                          // res.sendStatus(code)
    | Detail(view: CourseView)                          // projected course
    | Record(id: int, course: Course, user: Option<User>)  // unprojected course
    | Index(entries: map<int, Listing>)                 // course list
    | ServerFault                                       // a serialised exception

  datatype Response =
    | Reply(status: int, body: Body, location: Option<string>)
    | Forwarded(error: DbError)
  {
    predicate Is(code: int) {
      Reply? && status == code
    }
  }

  /** The answer together with the store the request leaves behind. */
  datatype Outcome = Outcome(response: Response, store: Store)
}

=== FILE: route_properties.dfy ===
/** Properties of the routes.js handlers that relate several calls or the
    store invariant. */
module RouteProperties {
  import opened Base
  import opened UserModel
  import opened CourseModel
  import opened Database
  import opened Http
  import opened Routes

  /** Replacing one user's password hash. */
  function WithPassword(users: seq<User>, k: int, pw: string): (users': seq<User>)
    requires 0 <= k < |users|
    ensures |users'| == |users| && users'[k].password == pw
    ensures forall j :: 0 <= j < |users| && j != k ==> users'[j] == users[j]
    ensures Public(users'[k]) == Public(users[k])
  {
    users[k := users[k].(password := pw)]
  }

  /** Looking up a user and projecting it does not depend on any password. */
  lemma {:induction false} FindByIdPublic(users: seq<User>, k: int, pw: string, id: int)
    requires 0 <= k < |users|
    ensures PublicOf(FindById(WithPassword(users, k, pw), id)) == PublicOf(FindById(users, id))
  {
    var users' := WithPassword(users, k, pw);
    if users[0].id != id {
      if k == 0 {
        assert users'[1..] == users[1..];
      } else {
        assert users'[1..] == WithPassword(users[1..], k - 1, pw);
        FindByIdPublic(users[1..], k - 1, pw, id);
      }
    }
  }

  /** GET /courses/:id never reveals a password: changing any user's stored
      password leaves every answer unchanged. */
  lemma GetCourseHidesPassword(s: Store, id: int, k: int, pw: string)
    requires 0 <= k < |s.users|
    ensures GetCourse(id, s) == GetCourse(id, s.(users := WithPassword(s.users, k, pw)))
  {
    if id in s.courses {
      FindByIdPublic(s.users, k, pw, s.courses[id].userId);
    }
  }

  /** In a well-formed store GET /courses/:id shows the owner's public
      attributes. */
  lemma GetCourseShowsOwner(s: Store, id: int)
    requires Wellformed(s)
    requires id in s.courses
    ensures 1 <= s.courses[id].userId <= |s.users|
    ensures GetCourse(id, s).body.view.user == Some(Public(s.users[s.courses[id].userId - 1]))
  {
  }

  /** GET /courses, unlike GET /courses/:id, includes each owner's full row,
      stored password hash and all. */
  lemma ListingIncludesPassword(s: Store, id: int)
    requires Wellformed(s)
    requires id in s.courses
    ensures 1 <= s.courses[id].userId <= |s.users|
    ensures ListCourses(s).body.entries[id].user == Some(s.users[s.courses[id].userId - 1])
    ensures ListCourses(s).body.entries[id].user.value.password == s.users[s.courses[id].userId - 1].password
  {
  }

  /** A successful POST /courses adds exactly one course under a fresh id. */
  lemma PostCourseAddsOne(u: User, body: CourseFields, s: Store, fault: DbFault)
    requires Wellformed(s)
    requires PostCourse(u, body, s, fault).response.Is(201)
    ensures s.nextCourseId !in s.courses
    ensures PostCourse(u, body, s, fault).store.courses.Keys == s.courses.Keys + {s.nextCourseId}
    ensures |PostCourse(u, body, s, fault).store.courses| == |s.courses| + 1
    ensures PostCourse(u, body, s, fault).store.users == s.users
  {
  }

  /** POST /users keeps the store well formed: the new row takes the next
      id and every course keeps its owner. */
  lemma PostUserPreservesWellformed(body: UserFields, h: Hasher, salt: Salt, s: Store, fault: DbFault)
    requires Wellformed(s)
    ensures Wellformed(PostUser(body, h, salt, s, fault).store)
  {
    if PostUser(body, h, salt, s, fault).response.Is(201) {
      AddUserWellformed(s, ToUser(|s.users| + 1, BuildUser(body, h, salt)));
    }
  }

  /** POST /courses keeps the store well formed. */
  lemma PostCoursePreservesWellformed(u: User, body: CourseFields, s: Store, fault: DbFault)
    requires Wellformed(s)
    ensures Wellformed(PostCourse(u, body, s, fault).store)
  {
  }

  /** PUT /courses/:id keeps the store well formed, even when the owner
      hands the course to another existing user. */
  lemma PutCoursePreservesWellformed(u: User, id: int, body: CourseFields, s: Store, fault: DbFault)
    requires Wellformed(s)
    ensures Wellformed(PutCourse(u, id, body, s, fault).store)
  {
  }

  /** DELETE /courses/:id keeps the store well formed. */
  lemma DeleteCoursePreservesWellformed(u: User, id: int, s: Store, fault: DbFault)
    requires Wellformed(s)
    ensures Wellformed(DeleteCourse(u, id, s, fault).store)
  {
  }

  /** The owner deleting the same course twice gets 204, then 404. */
  lemma DeleteTwice(u: User, id: int, s: Store, f1: DbFault, f2: DbFault)
    requires id in s.courses && s.courses[id].userId == u.id
    requires f1.Clean?
    ensures DeleteCourse(u, id, s, f1).response == Reply(204, NoContent, None)
    ensures DeleteCourse(u, id, DeleteCourse(u, id, s, f1).store, f2).response
            == Reply(404, Message(CourseMissing), None)
    ensures GetCourse(id, DeleteCourse(u, id, s, f1).store) == Reply(404, Message(CourseMissing), None)
  {
  }

  /** After a successful PUT the course reads back with the merged values,
      and every other course reads back exactly as before. */
  lemma PutThenGet(u: User, id: int, body: CourseFields, s: Store, fault: DbFault, other: int)
    requires PutCourse(u, id, body, s, fault).response.Is(204)
    requires other != id
    ensures GetCourse(id, PutCourse(u, id, body, s, fault).store).body.view.title
            == Merge(s.courses[id], body).title.v
    ensures GetCourse(id, PutCourse(u, id, body, s, fault).store).body.view.userId
            == Merge(s.courses[id], body).userId.v
    ensures GetCourse(other, PutCourse(u, id, body, s, fault).store) == GetCourse(other, s)
  {
  }
}

=== FILE: routes.dfy ===
/** The root router of routes.js. Its `authenticateUser` middleware comes
    from a file that is not part of this model, so every authenticated
    handler takes the `currentUser` that middleware attached as a parameter
    and assumes nothing else about it. */
module Routes {
  import opened Base
  import opened Decimal
  import opened UserModel
  import opened CourseModel
  import opened Database
  import opened Http

  const CourseMissing := "The course you are looking for doesn't exist."
  const UpdateForbidden := "You are not allowed to update this course."
  const DeleteForbidden := "You are not allowed to delete this course"

  /** `asyncHandler`: an exception a handler lets escape becomes a 500 reply
      carrying the serialised error. */
  const Crashed := Reply(500, ServerFault, None)

  /** The catch blocks of POST /users, POST /courses and PUT /courses/:id:
      validation and unique-constraint errors become 400 with the message
      list; anything else escapes to `asyncHandler`. */
  function SaveFailure(e: DbError): (r: Response)
    ensures e.ValidationError? || e.UniqueConstraintError? ==> r == Reply(400, Errors(e.messages), None)
    ensures e.ForeignKeyError? || e.OtherError? ==> r == Crashed
  {
    match e
    case ValidationError(m) => Reply(400, Errors(m), None)
    case UniqueConstraintError(m) => Reply(400, Errors(m), None)
    case _ => Crashed
  }

  /** POST /users: build the user (hashing the password), save it, answer
      201 with `Location: /`. */
  function PostUser(body: UserFields, h: Hasher, salt: Salt, s: Store, fault: DbFault): (o: Outcome)
    ensures o.response.Is(201) <==> UserErrors(BuildUser(body, h, salt)) == [] && fault.Clean?
    ensures o.response.Is(201) ==>
              && o.response == Reply(201, NoContent, Some("/"))
              && o.store == s.(users := s.users + [ToUser(|s.users| + 1, BuildUser(body, h, salt))])
              && o.store.users[|s.users|].password == h.hash(body.password.v, salt)
    ensures UserErrors(BuildUser(body, h, salt)) != [] ==>
              o == Outcome(Reply(400, Errors(UserErrors(BuildUser(body, h, salt))), None), s)
    ensures SaveUser(BuildUser(body, h, salt), s, fault).Err? ==>
              o == Outcome(SaveFailure(SaveUser(BuildUser(body, h, salt), s, fault).error), s)
    ensures !o.response.Is(201) ==> o.store == s
    ensures o.response.Reply? && o.response.status in {201, 400, 500}
  {
    match SaveUser(BuildUser(body, h, salt), s, fault)
    case Ok(u) => Outcome(Reply(201, NoContent, Some("/")), s.(users := s.users + [u]))
    case Err(e) => Outcome(SaveFailure(e), s)
  }

  /** GET /courses: every course with its full owner row. `findAll` always
      yields an array, so the 404 branch of the handler is never taken. */
  function ListCourses(s: Store): (r: Response)
    ensures r.Is(200) && r.body.Index?
    ensures r.body.entries.Keys == s.courses.Keys
    ensures forall id :: id in r.body.entries ==> r.body.entries[id].course == s.courses[id]
  {
    Reply(200, Index(map id | id in s.courses :: Listing(s.courses[id], FindById(s.users, s.courses[id].userId))), None)
  }

  function Public(u: User): (p: PublicUser)
    ensures p.id == u.id && p.emailAddress == u.emailAddress
    ensures p.firstName == u.firstName && p.lastName == u.lastName
  {
    PublicUser(u.id, u.firstName, u.lastName, u.emailAddress)
  }

  function PublicOf(owner: Option<User>): (p: Option<PublicUser>)
    ensures p.Some? <==> owner.Some?
    ensures p.Some? ==> p.value == Public(owner.value)
  {
    if owner.Some? then Some(Public(owner.value)) else None
  }

  /** GET /courses/:id: 404 for an unknown id, otherwise the course's id,
      title, description, estimatedTime, materialsNeeded and userId, with
      the owner's id, names and email address. */
  function GetCourse(id: int, s: Store): (r: Response)
    ensures id !in s.courses <==> r == Reply(404, Message(CourseMissing), None)
    ensures id in s.courses ==>
              && r.Is(200) && r.body.Detail?
              && var c, v := s.courses[id], r.body.view;
              && v.id == id && v.title == c.title && v.description == c.description
              && v.estimatedTime == c.estimatedTime && v.materialsNeeded == c.materialsNeeded
              && v.userId == c.userId
              && (v.user.Some? ==> v.user.value.id == c.userId)
  {
    if id in s.courses then
      var c := s.courses[id];
      Reply(200, Detail(CourseView(id, c.title, c.description, c.estimatedTime, c.materialsNeeded,
                                   c.userId, PublicOf(FindById(s.users, c.userId)))), None)
    else
      Reply(404, Message(CourseMissing), None)
  }

  /** POST /courses: the owner is whatever `userId` the body names, not the
      caller; the new course gets the next id and its URL as `Location`. */
  function PostCourse(currentUser: User, body: CourseFields, s: Store, fault: DbFault): (o: Outcome)
    ensures o.response.Is(201) <==> SaveCourse(body, s, fault).Ok?
    ensures o.response.Is(201) ==>
              && o.response == Reply(201, NoContent, Some(CourseLocation(s.nextCourseId)))
              && o.store == s.(courses := s.courses[s.nextCourseId := ToCourse(body)],
                               nextCourseId := s.nextCourseId + 1)
              && o.store.courses[s.nextCourseId].userId == body.userId.v
    ensures CourseErrors(body) != [] ==> o == Outcome(Reply(400, Errors(CourseErrors(body)), None), s)
    ensures SaveCourse(body, s, fault).Err? ==> o == Outcome(SaveFailure(SaveCourse(body, s, fault).error), s)
    ensures !o.response.Is(201) ==> o.store == s
    ensures o.response.Reply? && o.response.status in {201, 400, 500}
  {
    match SaveCourse(body, s, fault)
    case Ok(c) =>
      var id := s.nextCourseId;
      Outcome(Reply(201, NoContent, Some(CourseLocation(id))),
              s.(courses := s.courses[id := c], nextCourseId := id + 1))
    case Err(e) => Outcome(SaveFailure(e), s)
  }

  /** PUT /courses/:id: existence, then ownership, then validation, then
      the update. Any error other than a validation or unique-constraint one
      reaches an undefined `next`, which throws, so `asyncHandler` answers
      500. */
  function PutCourse(currentUser: User, id: int, body: CourseFields, s: Store, fault: DbFault): (o: Outcome)
    ensures id !in s.courses ==> o == Outcome(Reply(404, Message(CourseMissing), None), s)
    ensures id in s.courses && s.courses[id].userId != currentUser.id ==>
              o == Outcome(Reply(403, Message(UpdateForbidden), None), s)
    ensures id in s.courses && s.courses[id].userId == currentUser.id
            && Merge(s.courses[id], body) == FieldsOf(s.courses[id]) ==>
              o == Outcome(Reply(204, NoContent, None), s)
    ensures id in s.courses && s.courses[id].userId == currentUser.id
            && Merge(s.courses[id], body) != FieldsOf(s.courses[id])
            && CourseErrors(Merge(s.courses[id], body)) != [] ==>
              o == Outcome(Reply(400, Errors(CourseErrors(Merge(s.courses[id], body))), None), s)
    ensures o.response.Is(204) <==>
              id in s.courses && s.courses[id].userId == currentUser.id
              && SaveUpdate(s.courses[id], body, s, fault).Ok?
    ensures o.response.Is(204) ==>
              && o.response == Reply(204, NoContent, None)
              && o.store == s.(courses := s.courses[id := SaveUpdate(s.courses[id], body, s, fault).value])
    ensures id in s.courses && s.courses[id].userId == currentUser.id
            && SaveUpdate(s.courses[id], body, s, fault).Err? ==>
              o == Outcome(SaveFailure(SaveUpdate(s.courses[id], body, s, fault).error), s)
    ensures !o.response.Is(204) ==> o.store == s
    ensures o.response.Reply? && o.response.status in {204, 400, 403, 404, 500}
  {
    if id !in s.courses then
      Outcome(Reply(404, Message(CourseMissing), None), s)
    else if currentUser.id != s.courses[id].userId then
      Outcome(Reply(403, Message(UpdateForbidden), None), s)
    else
      match SaveUpdate(s.courses[id], body, s, fault)
      case Ok(c) => Outcome(Reply(204, NoContent, None), s.(courses := s.courses[id := c]))
      case Err(e) => Outcome(SaveFailure(e), s)
  }

  /** DELETE /courses/:id: existence, then ownership, then `destroy`; a
      failing destroy answers 500. */
  function DeleteCourse(currentUser: User, id: int, s: Store, fault: DbFault): (o: Outcome)
    ensures id !in s.courses ==> o == Outcome(Reply(404, Message(CourseMissing), None), s)
    ensures id in s.courses && s.courses[id].userId != currentUser.id ==>
              o == Outcome(Reply(403, Message(DeleteForbidden), None), s)
    ensures o.response.Is(204) <==> id in s.courses && s.courses[id].userId == currentUser.id && fault.Clean?
    ensures o.response.Is(204) ==>
              o == Outcome(Reply(204, NoContent, None), s.(courses := s.courses - {id}))
    ensures !o.response.Is(204) ==> o.store == s
    ensures id in s.courses && s.courses[id].userId == currentUser.id && !fault.Clean? ==> o == Outcome(Crashed, s)
    ensures o.response.Reply? && o.response.status in {204, 403, 404, 500}
  {
    if id !in s.courses then
      Outcome(Reply(404, Message(CourseMissing), None), s)
    else if s.courses[id].userId != currentUser.id then
      Outcome(Reply(403, Message(DeleteForbidden), None), s)
    else if fault.Clean? then
      Outcome(Reply(204, NoContent, None), s.(courses := s.courses - {id}))
    else
      Outcome(Reply(500, ServerFault, None), s)
  }
}

=== FILE: scenarios.dfy ===
/** End-to-end properties that cross files: signing up through routes.js
    and then signing in through the credential check of
    api/routes/courses.js, and the owner guard after a create. */
module Scenarios {
  import opened Base
  import opened UserModel
  import opened CourseModel
  import opened Database
  import opened Http
  import opened ApiCourses
  import Routes

  /** Sign up with password `p`, then sign in with `p`: the new row stores
      the hash of `p`, and the credential check resolves to that row,
      provided no earlier account uses the same email address. */
  lemma SignUpThenAuthenticate(body: UserFields, h: Hasher, salt: Salt, s: Store)
    requires Sound(h)
    requires Filled(body.firstName) && Filled(body.lastName) && Filled(body.emailAddress)
    requires Truthy(body.password)
    requires forall j :: 0 <= j < |s.users| ==> s.users[j].emailAddress != body.emailAddress.v
    ensures Routes.PostUser(body, h, salt, s, Clean).response == Reply(201, NoContent, Some("/"))
    ensures var users := Routes.PostUser(body, h, salt, s, Clean).store.users;
            && |users| == |s.users| + 1
            && users[|s.users|].password == h.hash(body.password.v, salt)
            && Authenticate(Some(Credentials(body.emailAddress.v, body.password.v)), users, h)
               == Proceed(users[|s.users|])
  {
  }

  /** The email column is not unique: signing up again with an address that
      is already taken changes no sign-in outcome for that address, so the
      new account can never be reached with it. */
  lemma TakenEmailShadowsSignUp(body: UserFields, h: Hasher, salt: Salt, s: Store, fault: DbFault,
                                k: int, pass: string)
    requires 0 <= k < |s.users|
    requires body.emailAddress == Present(s.users[k].emailAddress)
    ensures var creds := Some(Credentials(s.users[k].emailAddress, pass));
            Authenticate(creds, Routes.PostUser(body, h, salt, s, fault).store.users, h)
            == Authenticate(creds, s.users, h)
  {
    var email := s.users[k].emailAddress;
    var users := Routes.PostUser(body, h, salt, s, fault).store.users;
    var j := FindByEmail(s.users, email).value;
    assert FirstWithEmail(s.users, j, email);
    assert users[..|s.users|] == s.users;
    assert users[j] == s.users[j];
    assert FirstWithEmail(users, j, email);
  }

  /** A user who creates a course owned by themself, then another user who
      tries to update it through routes.js, is refused with 403 and the
      course is untouched. */
  lemma OtherUserCannotUpdate(x: User, y: User, body: CourseFields, update: CourseFields,
                              s: Store, f1: DbFault, f2: DbFault)
    requires body.userId == Present(x.id) && x.id != y.id
    requires Routes.PostCourse(x, body, s, f1).response.Is(201)
    ensures var s1 := Routes.PostCourse(x, body, s, f1).store;
            Routes.PutCourse(y, s.nextCourseId, update, s1, f2)
            == Outcome(Reply(403, Message(Routes.UpdateForbidden), None), s1)
  {
  }

  /** A course body without a title is refused with 400, and the message
      list names the missing title. */
  lemma MissingTitleRejected(u: User, body: CourseFields, s: Store, fault: DbFault)
    requires body.title.IsNullish()
    ensures Routes.PostCourse(u, body, s, fault).response.Is(400)
    ensures TitleNull in Routes.PostCourse(u, body, s, fault).response.body.errors
    ensures Routes.PostCourse(u, body, s, fault).store == s
  {
  }
}

=== FILE: user_model.dfy ===
/** The User model of api/models/users.js: four required text attributes,
    a password setter that hashes on write, and the one-to-many link to
    courses through `userId`. */
module UserModel {
  import opened Base

  /** A row of the Users table. `password` holds whatever was written: a
      bcrypt hash for every account created through the model. */
  datatype User = User(id: int, firstName: string, lastName: string, emailAddress: string, password: string)

  /** The attributes of a User instance before it is saved; also the shape of
      a POST /users body, whose `password` is still the plaintext. */
  datatype UserFields = UserFields(
    firstName: Value<string>,
    lastName: Value<string>,
    emailAddress: Value<string>,
    password: Value<string>)

  type Salt = nat

  /** The bcrypt pair, left uninterpreted: `hash` draws a fresh salt on every
      call, so a stored hash can only be checked with `verifies`, never
      recomputed and compared. */
  datatype Hasher = Hasher(hash: (string, Salt) -> string, verifies: (string, string) -> bool)

  /** The only facts the model assumes about bcrypt: a hash of `p` verifies
      against `p` whatever the salt, and a hash is never blank (it starts
      with `$2`). */
  ghost predicate Sound(h: Hasher) {
    forall p: string, salt: Salt :: h.verifies(p, h.hash(p, salt)) && !Blank(h.hash(p, salt))
  }

  const FirstNameNull := "Please include a name"
  const FirstNameEmpty := "Please enter a name"
  const LastNameNull := "Please include a last name"
  const LastNameEmpty := "Please enter a last name"
  const EmailNull := "Please include an email address"
  const EmailEmpty := "Please enter an email address"
  const PasswordNull := "Please include a password"
  const PasswordEmpty := "Please enter a password"

  /** The four notEmpty messages. */
  const UserEmptyMessages := {FirstNameEmpty, LastNameEmpty, EmailEmpty, PasswordEmpty}

  /** The four notNull messages. */
  const UserNullMessages := {FirstNameNull, LastNameNull, EmailNull, PasswordNull}

  /** Where a message stands in a report: the notNull messages in attribute
      order, then the notEmpty ones in attribute order; anything else last. */
  function UserRank(m: string): nat {
    if m == FirstNameNull then 0 else if m == LastNameNull then 1
    else if m == EmailNull then 2 else if m == PasswordNull then 3
    else if m == FirstNameEmpty then 4 else if m == LastNameEmpty then 5
    else if m == EmailEmpty then 6 else if m == PasswordEmpty then 7
    else 8
  }

  /** The eight messages are ranked in report order. */
  lemma UserRanksInOrder()
    ensures UserRank(FirstNameNull) == 0 && UserRank(LastNameNull) == 1
    ensures UserRank(EmailNull) == 2 && UserRank(PasswordNull) == 3
    ensures UserRank(FirstNameEmpty) == 4 && UserRank(LastNameEmpty) == 5
    ensures UserRank(EmailEmpty) == 6 && UserRank(PasswordEmpty) == 7
  {
  }

  /** The custom `set` of the password attribute: a truthy value is replaced
      by its hash; a falsy one (absent, null or "") is ignored and the
      attribute stays unset. */
  function SetPassword(raw: Value<string>, h: Hasher, salt: Salt): (stored: Value<string>)
    ensures stored.Present? <==> Truthy(raw)
    ensures !stored.Present? ==> stored == Absent
    ensures stored.Present? ==> stored.v == h.hash(raw.v, salt)
  {
    if Truthy(raw) then Present(h.hash(raw.v, salt)) else Absent
  }

  /** `User.build(body)`: every attribute is copied, the password through
      its setter. */
  function BuildUser(body: UserFields, h: Hasher, salt: Salt): (f: UserFields)
    ensures f.firstName == body.firstName && f.lastName == body.lastName
    ensures f.emailAddress == body.emailAddress
    ensures f.password == SetPassword(body.password, h, salt)
  {
    body.(password := SetPassword(body.password, h, salt))
  }

  predicate ValidUser(f: UserFields) {
    Filled(f.firstName) && Filled(f.lastName) && Filled(f.emailAddress) && Filled(f.password)
  }

  /** The notNull failures, reported while the ORM walks the attributes. */
  function UserNullErrors(f: UserFields): (errs: seq<string>)
    ensures forall m :: m in errs ==> m in UserNullMessages
    ensures FirstNameNull in errs <==> f.firstName.IsNullish()
    ensures LastNameNull in errs <==> f.lastName.IsNullish()
    ensures EmailNull in errs <==> f.emailAddress.IsNullish()
    ensures PasswordNull in errs <==> f.password.IsNullish()
    ensures Ascending(errs, UserRank)
    ensures forall m :: m in errs ==> UserRank(m) < 4
  {
    var a, b := NullText(f.firstName, FirstNameNull), NullText(f.lastName, LastNameNull);
    var c, d := NullText(f.emailAddress, EmailNull), NullText(f.password, PasswordNull);
    UserRanksInOrder();
    PiecesAscending4(a, b, c, d, FirstNameNull, LastNameNull, EmailNull, PasswordNull, UserRank);
    a + b + c + d
  }

  /** The notEmpty failures, reported once the attribute validators settle. */
  function UserEmptyErrors(f: UserFields): (errs: seq<string>)
    ensures forall m :: m in errs ==> m in UserEmptyMessages
    ensures FirstNameEmpty in errs <==> f.firstName.Present? && Blank(f.firstName.v)
    ensures LastNameEmpty in errs <==> f.lastName.Present? && Blank(f.lastName.v)
    ensures EmailEmpty in errs <==> f.emailAddress.Present? && Blank(f.emailAddress.v)
    ensures PasswordEmpty in errs <==> f.password.Present? && Blank(f.password.v)
    ensures Ascending(errs, UserRank)
    ensures forall m :: m in errs ==> 4 <= UserRank(m)
  {
    var a, b := EmptyText(f.firstName, FirstNameEmpty), EmptyText(f.lastName, LastNameEmpty);
    var c, d := EmptyText(f.emailAddress, EmailEmpty), EmptyText(f.password, PasswordEmpty);
    UserRanksInOrder();
    PiecesAscending4(a, b, c, d, FirstNameEmpty, LastNameEmpty, EmailEmpty, PasswordEmpty, UserRank);
    a + b + c + d
  }

  /** The validation messages of a User instance: every notNull failure,
      then every notEmpty failure, each group in declaration order. */
  function UserErrors(f: UserFields): (errs: seq<string>)
    ensures errs == [] <==> ValidUser(f)
    ensures |errs| <= 4
    ensures FirstNameNull in errs <==> f.firstName.IsNullish()
    ensures FirstNameEmpty in errs <==> f.firstName.Present? && Blank(f.firstName.v)
    ensures LastNameNull in errs <==> f.lastName.IsNullish()
    ensures LastNameEmpty in errs <==> f.lastName.Present? && Blank(f.lastName.v)
    ensures EmailNull in errs <==> f.emailAddress.IsNullish()
    ensures EmailEmpty in errs <==> f.emailAddress.Present? && Blank(f.emailAddress.v)
    ensures PasswordNull in errs <==> f.password.IsNullish()
    ensures PasswordEmpty in errs <==> f.password.Present? && Blank(f.password.v)
    ensures forall m :: m in errs ==> m in UserNullMessages + UserEmptyMessages
    ensures Ascending(errs, UserRank)
    ensures NoRepeats(errs)
  {
    var nulls, empties := UserNullErrors(f), UserEmptyErrors(f);
    MessageGroupsDisjoint();
    JoinGroups(nulls, empties, UserRank, 4);
    FieldReportsOnce(f.firstName, FirstNameNull, FirstNameEmpty);
    FieldReportsOnce(f.lastName, LastNameNull, LastNameEmpty);
    FieldReportsOnce(f.emailAddress, EmailNull, EmailEmpty);
    FieldReportsOnce(f.password, PasswordNull, PasswordEmpty);
    nulls + empties
  }

  /** Once a notEmpty message is reported, only notEmpty messages follow. */
  lemma UserNullsFirst(f: UserFields)
    ensures var errs := UserErrors(f);
            forall i, j :: 0 <= i < j < |errs| && errs[i] in UserEmptyMessages ==> errs[j] in UserEmptyMessages
  {
    var errs := UserErrors(f);
    UserRanksInOrder();
    forall i, j | 0 <= i < j < |errs| && errs[i] in UserEmptyMessages
      ensures errs[j] in UserEmptyMessages
    {
      assert 4 <= UserRank(errs[i]) < UserRank(errs[j]);
      assert errs[j] in UserNullMessages + UserEmptyMessages;
    }
  }

  lemma MessageGroupsDisjoint()
    ensures UserNullMessages !! UserEmptyMessages
  {
  }

  /** The row a valid instance is saved as. */
  function ToUser(id: int, f: UserFields): (u: User)
    requires UserErrors(f) == []
    ensures u.id == id
    ensures Present(u.firstName) == f.firstName && Present(u.lastName) == f.lastName
    ensures Present(u.emailAddress) == f.emailAddress && Present(u.password) == f.password
  {
    User(id, f.firstName.v, f.lastName.v, f.emailAddress.v, f.password.v)
  }

  /** A sign-up whose password is falsy leaves the attribute unset, so it is
      rejected with the notNull message and never with the notEmpty one: an
      empty password is never stored, hashed or raw. */
  lemma UnsetPasswordRejected(body: UserFields, h: Hasher, salt: Salt)
    requires !Truthy(body.password)
    ensures PasswordNull in UserErrors(BuildUser(body, h, salt))
    ensures PasswordEmpty !in UserErrors(BuildUser(body, h, salt))
  {
  }

  /** With a sound hasher the password attribute of a built user never
      reports a message once a truthy password was given, and the stored
      value is a hash that verifies against the plaintext. */
  lemma HashedPasswordAccepted(body: UserFields, h: Hasher, salt: Salt)
    requires Sound(h)
    requires Truthy(body.password)
    ensures PasswordNull !in UserErrors(BuildUser(body, h, salt))
    ensures PasswordEmpty !in UserErrors(BuildUser(body, h, salt))
    ensures h.verifies(body.password.v, BuildUser(body, h, salt).password.v)
  {
  }

  /** The email attribute has no format and no uniqueness rule: any two
      non-blank addresses lead to the same messages, none about the email. */
  lemma EmailHasNoFormatRule(f: UserFields, e1: string, e2: string)
    requires !Blank(e1) && !Blank(e2)
    ensures UserErrors(f.(emailAddress := Present(e1))) == UserErrors(f.(emailAddress := Present(e2)))
    ensures EmailNull !in UserErrors(f.(emailAddress := Present(e1)))
    ensures EmailEmpty !in UserErrors(f.(emailAddress := Present(e1)))
  {
  }
}
